=== FILE: README.md ===
# phoole/env `Environment`, modelled in Dafny

`Environment` loads `.env` files into the process environment. It does this in
three steps:

- **`parseString`** reads the text with one multi-line regular expression. The
  result is an ordered PHP array from key to raw value.
- **`parse`** walks that array in order. For each pair it replaces the `${...}`
  references in the value, then writes the pair with `setEnv`.
- **`setEnv`** writes a variable only when overwriting or when the variable is
  unset.

A reference is evaluated by `getReference`, which supports three forms:

- `NAME` gives the value of `NAME`, or `""` when it is unset.
- `NAME:-default` gives the default while `NAME` is unset, and never stores it.
- `NAME:=default` first stores the default in an unset `NAME` (through
  `setEnv(..., false)`), then reads `NAME`.

## How the model is built

The model follows the class member by member.

**`Env.Environment` (environment.dfy).** This class holds the process
environment as a field `env: map<string, string>`.

- `SetEnv`, `GetReference` and `Parse` are methods that modify `env`.
- `ParseString` is a loop that fills a PHP array entry by entry.
- Each method is proved against a specification function:
  - `EnvStore.Written` for `setEnv`;
  - `Reference.Evaluate` for `getReference`;
  - `Loader.ApplyAll` for `parse`;
  - `LineGrammar.ParsedPairs` for `parseString`.

The lemmas about those functions carry the properties.

**The line grammar (line_grammar.dfy).** This is a scanner over one line. It
follows the regular expression's alternatives in the order PCRE tries them:

- Possessive runs never give characters back.
- The unquoted value is lazy.
- Quoted content is lazy, so it closes at the first quote after which only
  blanks and an optional comment remain. The pattern is written in a
  single-quoted PHP string, where `\\\2` becomes `\\2`. PCRE reads that as a
  backslash followed by the digit 2, not as an escaped quote, so a backslash in
  a quoted value escapes nothing (`LineGrammarFacts.QuotedFirstClose`,
  `LineScenarios.BackslashQuoteCloses`).
- The `.`/`source` directive alternative is modelled too. PHP reports its
  unmatched key group as `""`, so such a line stores the empty key with the
  empty value.

**The PHP array (ordered_pairs.dfy).** `OrderedPairs.PhpArray` holds the key
order and a map. Assigning to an existing key keeps that key's position.

**`deReferenceString`.** This comes from a trait whose code is not part of this
model, so it is a parameter `Loader.Dereferencer`. The parameter returns the new
store and the dereferenced value. The general lemmas about `parse`
(`ApplyAllSets`, `KeepsWithoutOverwrite`, `UntouchedKept`, `OverwriteLastWins`,
`FirstWriteStays`, `ParseOverwrites`) assume only that it never changes or
removes a variable that is already set (`Loader.OnlyAdds`). `getReference`
itself has this property (`Reference.EvaluateOnlyAdds`). `UnsetBeforeFirst`
needs more: a dereferencer that sets nothing at all. Under `OnlyAdds` alone a
key can be set before its first pair (`Scenarios.EarlierAssignShadows`).
`LiteralOverwrite` and `LiteralKeep` fix the identity dereferencer `Literal`.

Two dereferencers are concrete:

- `Loader.Literal` handles values without references.
- `Loader.WholeReference` handles values that are one whole `${...}`.

**A consequence of the code beyond the overwrite flag's documented meaning.** When
`parse` runs without overwriting, a key is not always left with either its
earlier value or its own dereferenced value. An earlier pair's `:=` can set a
key that a later pair names. That key then counts as already set, and keeps the
`:=` default. `Scenarios.EarlierAssignShadows` shows this on two pairs. The
model follows the code.

## Model

| member | source | states |
|---|---|---|
| Text.SkipSpaces | src/Environment.php:82 | the possessive whitespace run: everything skipped is whitespace, and the character it stops at is not |
| Text.HashFrom | src/Environment.php:86 | the first `#` at or after the start, or the end of the line when there is none |
| Text.TrimEnd | src/Environment.php:86 | drops exactly the trailing whitespace of a range: what is dropped is whitespace, and what is kept ends in a non-blank or is empty |
| Text.IndexOf | src/Environment.php:112 | `strpos`: a position exactly when the separator occurs, and then its first occurrence |
| OrderedPairs.Put | src/Environment.php:97 | storing a key keeps the array well formed: keys distinct, order and values agree |
| OrderedPairs.PutEffect | src/Environment.php:97 | the key holds the new value; every other key keeps its value; an existing key keeps its place and a new one goes last |
| OrderedPairs.PutAllValid | src/Environment.php:95-101 | the array the loop builds is well formed |
| LineGrammar.ParsedPairs | src/Environment.php:79-104 | what `parseString` returns is a well-formed PHP array |
| OrderedPairs.PutAllKeys | src/Environment.php:95-101 | a key is in the array if and only if some entry carries it |
| OrderedPairs.PutAllLastWins | src/Environment.php:95-101 | a repeated key holds the value of its last entry |
| OrderedPairs.PutAllFirstOrder | src/Environment.php:95-101 | keys are ordered by their first entry: a repeated key keeps the position of its first insertion |
| LineGrammar.KeyEnd | src/Environment.php:84 | the key run is maximal: all key characters, stopped by a `#`, `=`, whitespace or the end |
| LineGrammar.QuotedEnd | src/Environment.php:87 | the value closes at the first quote after which a valid tail follows; no result means that no closing position exists at all |
| LineGrammar.MatchAssignment | src/Environment.php:82-88 | a matching line yields an assignment whose key is non-empty and holds no `#`, `=` or whitespace |
| LineGrammar.MatchDirective | src/Environment.php:90 | the second alternative yields only directives |
| LineGrammarFacts.LazyUnquoted | src/Environment.php:86 | the lazy unquoted value ends at the first place where the tail can match: before the first `#`, trailing blanks dropped |
| LineGrammarFacts.QuotedFirstClose | src/Environment.php:87 | PCRE's backtracking through the lazy content, with the items `\2` and any character, settles on the first quote that a valid tail follows, backslashes or not |
| LineGrammarFacts.QuotedUnique | src/Environment.php:87 | a quote with a valid tail and none before it is where the value closes |
| LineGrammarFacts.AssignmentAt | src/Environment.php:82-88 | once the leading blanks, the key, the blanks and `=` are located, the line's fate is that of its value group |
| LineGrammarFacts.EmptyValue | src/Environment.php:85-91 | `KEY=` with nothing or only a comment after it gives the key with the empty string |
| LineGrammarFacts.UnquotedValue | src/Environment.php:86 | an unquoted value is kept verbatim, cut at the first `#`, with its trailing whitespace dropped |
| LineGrammarFacts.QuotedValue | src/Environment.php:87 | a quoted value is the content up to the first quote that only blanks and a comment follow, kept verbatim with `#` and backslashes |
| LineGrammarFacts.QuotedNeedsCleanTail | src/Environment.php:87-91 | a quoted value that no valid tail follows makes the assignment alternative fail, so the line fares as the directive alternative does |
| LineGrammarFacts.PlainRoundTrip | src/Environment.php:84-86 | writing `key=value` for a key and a plain value gives that key and that value back |
| LineGrammarFacts.MatchOrigin | src/Environment.php:94-95 | every match comes from some line of the input |
| LineGrammarFacts.ParsedKeys | src/Environment.php:94-100 | every stored key is a valid key, or the empty key from a directive line |
| LineGrammarFacts.BlankOrCommentLine | src/Environment.php:82-92 | a blank line, or one holding only a `#` comment after blanks, matches neither alternative |
| LineGrammarFacts.UnmatchedLineAddsNothing | src/Environment.php:94-101 | a line that matches no alternative leaves the result unchanged |
| LineGrammarFacts.MatchedLineAdds | src/Environment.php:94-101 | a line that matches stores its entry into the array built from the earlier lines |
| Reference.Split | src/Environment.php:112-116 | `:-` is chosen exactly when it occurs anywhere; `:=` exactly when `:-` does not occur and `:=` does |
| Reference.SplitJoin | src/Environment.php:112-116 | the name, the operator and the default put back together give the text, and the name holds no earlier operator |
| Reference.JoinSplit | src/Environment.php:112-116 | the split is unique: any decomposition whose name holds no operator is the one chosen, so everything after the first operator is the default |
| Reference.EvaluateFallback | src/Environment.php:112-118 | with `:-`, the split is at its first occurrence; the result is the set value or else the default; the store is unchanged |
| Reference.EvaluateAssign | src/Environment.php:114-118 | with `:=` and no `:-`, an unset name gets the default, a set one is kept, and the result is the name's value afterwards |
| Reference.EvaluatePlain | src/Environment.php:111-118 | without an operator the default is `""`, and a variable set to `""` counts as set |
| Reference.EvaluateOnlyAdds | src/Environment.php:109-119 | `getReference` never changes or removes a set variable, and adds at most the one it names |
| EnvStore.WrittenEffect | src/Environment.php:127-132 | `setEnv` sets the key to the value when overwriting or when it was unset, keeps it otherwise, and changes no other variable |
| EnvStore.WrittenKeepsWithoutOverwrite | src/Environment.php:129 | without overwriting, no set variable changes |
| EnvStore.WrittenIdempotent | src/Environment.php:127-132 | a second identical `setEnv` changes nothing |
| Loader.ApplyAllSnoc | src/Environment.php:48-50 | one more pair is one more dereference-then-`setEnv` step |
| Loader.ApplyAllSplit | src/Environment.php:48-50 | applying the pairs in two runs is applying them in one |
| Loader.ApplyAllSets | src/Environment.php:46-52 | after `parse` every pair's key is set, and so is every variable set before |
| Loader.KeepsWithoutOverwrite | src/Environment.php:46-52 | without overwriting, every variable set before `parse` keeps its value |
| Loader.UntouchedKept | src/Environment.php:46-52 | a set variable that no pair names keeps its value, whether or not `parse` overwrites |
| Loader.OverwriteLastWins | src/Environment.php:46-52 | when overwriting, a key holds the value its last pair dereferenced to, against the store at that step |
| Loader.FirstWriteStays | src/Environment.php:46-52 | without overwriting, the first pair that reaches an unset key fixes its value for good |
| Loader.LiteralOverwrite | src/Environment.php:46-52 | the identity dereferencer, which is `deReferenceString` on values without `${`, with overwriting: each key ends with its last pair's value |
| Loader.LiteralKeep | src/Environment.php:46-52 | the identity dereferencer, which is `deReferenceString` on values without `${`, without overwriting: a set key keeps its value, an unset one takes its first pair's value |
| Loader.UnsetBeforeFirst | src/Environment.php:46-52 | with a dereferencer that sets nothing, a key stays unset until its first pair |
| Loader.LiteralOnlyAdds | src/Environment.php:49 | the reference-free dereferencer sets nothing |
| Loader.WholeReferenceOnlyAdds | src/Environment.php:109-119 | evaluating one whole reference never changes or removes a set variable |
| Loader.EntriesOfDistinct | src/Environment.php:48 | each pair of a PHP array is both the first and the last with its key |
| Loader.ParseOverwrites | src/Environment.php:46-52 | `parse` with overwriting leaves every key of the array holding its value as dereferenced at its step |
| Env.Environment.SetEnv | src/Environment.php:127-132 | the new environment is the conditional write; the key is set afterwards; nothing set changes without overwriting |
| Env.Environment.GetReference | src/Environment.php:109-119 | the new environment and the result are those of `Evaluate`, and no set variable changes |
| Env.Environment.Parse | src/Environment.php:46-52 | the loop leaves the environment that applying the pairs in order gives |
| Env.Environment.ParseString | src/Environment.php:79-104 | the loop over the lines builds exactly the array of the matched lines' entries, and it is well formed |
| Env.Environment.Load | src/Environment.php:61-71 | loading text parses it (falsy text giving no pairs) and applies the pairs |
| Env.FalsyContentHasNoPairs | src/Environment.php:64-67 | empty text and the text `0`, which PHP treats as false, would give no pairs from the parser either |
| Scenarios.SetEnvCases | tests/EnvironmentTest.php:231-245 | an unset variable is written with and without overwriting; a set one is kept without overwriting |
| Scenarios.FallbackCases | tests/EnvironmentTest.php:198-212 | `ENV_TEST:-test` gives `test` when unset and `bingo` when set to it, storing nothing |
| Scenarios.AssignCases | tests/EnvironmentTest.php:214-227 | `ENV_TEST:=test` keeps `bingo` when set, and stores and returns `test` when unset |
| Scenarios.FallbackBeatsEarlierAssign | src/Environment.php:112-115 | `A:=x:-y` splits at `:-`, with the name `A:=x` |
| Scenarios.SecondOperatorIsDefault | src/Environment.php:113 | `N:-a:-b` has the default `a:-b` |
| Scenarios.EmptyValueCountsAsSet | src/Environment.php:118 | a variable set to `""` returns `""`, not the default |
| Scenarios.TmpDirReference | tests/EnvironmentTest.php:38-39 | `${MY_TMP_DIR:-/tmp}` with the variable unset gives `/tmp` and sets nothing |
| Scenarios.FallbackValueLoaded | tests/EnvironmentTest.php:38-39 | loading `TMP_DIR` with that value sets `TMP_DIR` to `/tmp` and leaves `MY_TMP_DIR` unset |
| Scenarios.AssignReference | src/Environment.php:114-116 | `${B:=x}` with `B` unset stores `x` in `B` and gives `x` |
| Scenarios.EarlierAssignShadows | src/Environment.php:46-52 | without overwriting, an earlier `:=` decides a later key: `B` ends as `x`, not its own `y` |
| LineScenarios.CommentOnlyValue | tests/EnvironmentTest.php:123-126 | `PATH=  # comment` gives `PATH` with the empty string |
| LineScenarios.UnquotedToEnd | tests/EnvironmentTest.php:128-131 | `PATH=/usr/local/bin` gives that path |
| LineScenarios.QuotedWithComment | tests/EnvironmentTest.php:133-141 | blanks around the key and `=`, a quoted value and a comment give the unquoted content |
| LineScenarios.ReferenceKeptVerbatim | tests/EnvironmentTest.php:143-156 | a value holding `${E:=t}` is stored unexpanded, the comment and the blank before it dropped |
| LineScenarios.BackslashQuoteCloses | src/Environment.php:87-91 | `K="\" #"` gives `\`: the quote after the backslash closes, and ` #"` is a comment |
| LineScenarios.BackslashBeforeClose | src/Environment.php:87 | `K="a\"` gives `a\`: a backslash before the closing quote is an ordinary character |
| LineScenarios.UnterminatedQuote | src/Environment.php:87-91 | `K='abc` yields no entry |
| LineScenarios.SourceDirective | src/Environment.php:90 | `source other.env` matches the directive alternative and stores the empty key with the empty value |

## Left out

- `load`/`loadPath` file reading: the text of the file is a parameter, given as its lines. The `RuntimeException` for an unreadable file is not modelled.
- `Env.Environment.ParseString`: the input is a sequence of lines without line breaks, not one string. In PHP the whitespace runs before the key and around `=` can cross line breaks, so a line holding `KEY=` followed by nothing but blanks takes the next line as its value, and that line's own pair is never stored. The model gives such a line `KEY` with `""` and parses the next line on its own.
- `Env.Environment.ParseString`: the possessive blank run after `.` or `source` also crosses line breaks. A `source` or `.` line followed by nothing but blanks therefore takes the next line as its argument, and the pair on that next line is never stored. The per-line `LineGrammar.MatchDirective` rejects such a line when nothing follows the word, stores `""` with `""` when blanks follow it, and in both cases parses the next line on its own.
- `Env.Environment.ParseString`: `preg_match_all` returns false on a PCRE error, such as hitting the backtracking limit. Then `parseString` returns no pairs for the whole text. The model has no such limits, and always parses every line.
- `deReferenceString`, with its brace matching and nested references, is not part of this model. It is the abstract `Loader.Dereferencer`. `Loader.WholeReference` covers only values that are a single `${...}` without inner braces.
- PHP turns numeric-string array keys into integers, and under `strict_types` `setEnv` would then throw a `TypeError`. The model keeps every key a string.
- `putenv` refuses or mangles names that are empty or hold `=`. Both can arise: the empty key comes from a directive line, and `=` from a `getReference` name. The model stores such names like any other.
- Characters are Unicode code points; PHP and PCRE here work on bytes. Whitespace is PCRE's ASCII set.
- The process environment is shared global state. Concurrent changes by other code are not modelled.
- The concrete line cases use short lines of the same shapes as the package's longer test lines. The general lemmas `LineGrammarFacts.UnquotedValue` and `LineGrammarFacts.QuotedValue` cover the longer lines.

=== FILE: env_store.dfy ===
/**
 * The process environment as the loader sees it through `getenv`/`putenv`: a
 * variable is either unset or set, possibly to the empty string.
 */
module EnvStore {
  type Store = map<string, string>

  /** Every variable set in `before` is still set, to the same value, in `after`. */
  ghost predicate Extends(after: Store, before: Store) {
    forall k :: k in before ==> k in after && after[k] == before[k]
  }

  /** The store after `setEnv(key, val, overwrite)`: written when overwriting or when the key is unset. */
  function Written(st: Store, key: string, val: string, overwrite: bool): Store {
    if overwrite || key !in st then st[key := val] else st
  }

  /**
   * After `setEnv` the key is set; it holds the new value when overwriting or
   * when it was unset, and keeps its old value otherwise; no other variable changes.
   */
  lemma WrittenEffect(st: Store, key: string, val: string, overwrite: bool)
    ensures key in Written(st, key, val, overwrite)
    ensures overwrite || key !in st ==> Written(st, key, val, overwrite)[key] == val
    ensures !overwrite && key in st ==> Written(st, key, val, overwrite)[key] == st[key]
    ensures forall k :: k != key ==> (k in Written(st, key, val, overwrite) <==> k in st)
    ensures forall k :: k != key && k in st ==> Written(st, key, val, overwrite)[k] == st[k]
  {
  }

  /** Without overwriting, `setEnv` never changes a variable that is already set. */
  lemma WrittenKeepsWithoutOverwrite(st: Store, key: string, val: string)
    ensures Extends(Written(st, key, val, false), st)
  {
  }

  /** Calling `setEnv` twice with the same arguments has the effect of calling it once. */
  lemma WrittenIdempotent(st: Store, key: string, val: string, overwrite: bool)
    ensures Written(Written(st, key, val, overwrite), key, val, overwrite) == Written(st, key, val, overwrite)
  {
  }
}

=== FILE: environment.dfy ===
/**
 * The `Environment` class: it owns no data of its own and works on the
 * process environment, which is modelled here as the field `env`.
 */
module Env {
  import opened Wrappers
  import opened Text
  import opened EnvStore
  import opened OrderedPairs
  import opened LineGrammar
  import opened LineGrammarFacts
  import opened Reference
  import opened Loader

  class Environment {
    /** The process environment as `getenv` sees it. */
    var env: Store

    constructor(initial: Store)
      ensures env == initial
    {
      env := initial;
    }

    /** `setEnv`: write the variable when overwriting or when it is unset; otherwise leave it. */
    method SetEnv(key: string, val: string, overwrite: bool)
      modifies this
      ensures env == Written(old(env), key, val, overwrite)
      ensures key in env && (overwrite || key !in old(env) ==> env[key] == val)
      ensures !overwrite ==> Extends(env, old(env))
    {
      if overwrite || key !in env {
        env := env[key := val];
      }
    }

    /**
     * `getReference`: split at the first `:-` or, failing that, at the first
     * `:=`; with `:=` store the default if the variable is unset; return the
     * variable's value if it is set and the default otherwise.
     */
    method GetReference(name: string) returns (value: string)
      modifies this
      ensures (env, value) == Evaluate(old(env), name)
      ensures Extends(env, old(env))
    {
      var n, default := name, "";
      var i := IndexOf(name, FallbackSep);
      if i.Some? {
        n, default := name[..i.value], name[i.value + 2..];
      } else {
        var j := IndexOf(name, AssignSep);
        if j.Some? {
          n, default := name[..j.value], name[j.value + 2..];
          SetEnv(n, default, false);
        }
      }
      value := if n in env then env[n] else default;
    }

    /**
     * `parse`: for each pair in the array's order, dereference the value
     * against the current environment and write it with `setEnv`.
     */
    method Parse(arr: PhpArray, overwrite: bool, deref: Dereferencer)
      requires arr.Valid()
      modifies this
      ensures env == ApplyAll(old(env), EntriesOf(arr), overwrite, deref)
    {
      ghost var es := EntriesOf(arr);
      var i := 0;
      while i < |arr.order|
        invariant 0 <= i <= |arr.order|
        invariant env == ApplyAll(old(env), es[..i], overwrite, deref)
      {
        var key := arr.order[i];
        var r := deref(env, arr.values[key]);
        env := r.0;
        SetEnv(key, r.1, overwrite);
        assert es[..i + 1] == es[..i] + [es[i]];
        ApplyAllSnoc(old(env), es[..i], es[i], overwrite, deref);
        i := i + 1;
      }
      assert es[..i] == es;
    }

    /**
     * `parseString`: every line the pattern matches stores its key and value,
     * a later line for the same key replacing the earlier value in place.
     */
    method ParseString(lines: seq<Line>) returns (pairs: PhpArray)
      ensures pairs == ParsedPairs(lines)
      ensures pairs.Valid()
    {
      pairs := Empty;
      var i := 0;
      while i < |lines|
        invariant 0 <= i <= |lines|
        invariant pairs == ParsedPairs(lines[..i])
      {
        assert lines[..i + 1] == lines[..i] + [lines[i]];
        match ParseLine(lines[i]) {
          case Some(m) =>
            var e := EntryOf(m);
            MatchedLineAdds(lines[..i], lines[i], m);
            pairs := Put(pairs, e.key, e.value);
          case None =>
            UnmatchedLineAddsNothing(lines[..i], lines[i]);
        }
        i := i + 1;
      }
      assert lines[..i] == lines;
    }

    /**
     * `load` on a file whose text is given as its lines: content that PHP
     * reads as false (empty, or exactly "0") gives no pairs; anything else is
     * parsed; then the pairs are applied.
     */
    method Load(lines: seq<Line>, overwrite: bool, deref: Dereferencer)
      modifies this
      ensures env == ApplyAll(old(env), EntriesOf(ParsedPairs(lines)), overwrite, deref)
    {
      var pairs := Empty;
      if !(lines == [] || lines == [""] || lines == ["0"]) {
        pairs := ParseString(lines);
      } else {
        FalsyContentHasNoPairs(lines);
      }
      Parse(pairs, overwrite, deref);
    }
  }

  /** Skipping the parser for falsy content changes nothing: that content has no pairs anyway. */
  lemma FalsyContentHasNoPairs(lines: seq<Line>)
    requires lines == [] || lines == [""] || lines == ["0"]
    ensures ParsedPairs(lines) == Empty
  {
    if lines != [] {
      assert lines[..0] == [];
      assert MatchAssignment(lines[0]).None?;
      assert MatchDirective(lines[0]).None?;
      assert Matches(lines) == [];
      assert Entries([]) == [];
    }
  }
}

=== FILE: line_grammar.dfy ===
/**
 * The `.env` line grammar of `parseString`, written as an explicit scanner over
 * one line that follows the regular expression's alternatives, possessive runs
 * and lazy quantifiers in the order the regex engine tries them.
 */
module LineGrammar {
  import opened Wrappers
  import opened Text
  import opened OrderedPairs

  /** One line of the input, without its line break. */
  type Line = s: string | '\n' !in s

  /** What one matching line yields: the regex's groups 1 and 3, or groups 4 and 5. */
  datatype Match =
    | Assignment(key: string, value: Option<string>)   // value None: group 3 did not take part
    | Directive(keyword: string, argument: string)

  /** A character that may stand in a key: anything but `#`, `=` and whitespace. */
  predicate IsKeyChar(c: char) {
    c != '#' && c != '=' && !IsSpace(c)
  }

  predicate IsKey(k: string) {
    |k| > 0 && forall i :: 0 <= i < |k| ==> IsKeyChar(k[i])
  }

  predicate IsQuote(c: char) {
    c == '"' || c == '\''
  }

  /** The end of the key run starting at `i`; the run is possessive, so it never gives characters back. */
  function KeyEnd(s: string, i: nat): (j: nat)
    requires i <= |s|
    ensures i <= j <= |s|
    ensures forall k :: i <= k < j ==> IsKeyChar(s[k])
    ensures j < |s| ==> !IsKeyChar(s[j])
    decreases |s| - i
  {
    if i < |s| && IsKeyChar(s[i]) then KeyEnd(s, i + 1) else i
  }

  /** The tail of the pattern matches from position `p`: only whitespace remains, then at most a `#` comment. */
  predicate TailMatches(s: string, p: nat)
    requires p <= |s|
  {
    var h := SkipSpaces(s, p);
    h == |s| || s[h] == '#'
  }

  /** Position `e` closes a quoted value opened with `q`: it holds `q` and the rest of the line is a tail. */
  predicate Closes(s: string, q: char, e: nat) {
    e < |s| && s[e] == q && TailMatches(s, e + 1)
  }

  /**
   * The closing quote the quoted alternative settles on when the content starts
   * at `p`: the first position holding the opening quote after which a tail can
   * match. The content is lazy, so every position is tried as the close before
   * one more item is consumed. The pattern sits in a single-quoted PHP string,
   * where `\\\2` becomes `\\2`: its items are the two characters `\2` or any one
   * character, so a backslash escapes no quote (`LineGrammarFacts.QuotedFirstClose`
   * follows the backtracking item by item and lands on the same position).
   */
  function QuotedEnd(s: string, q: char, p: nat): (r: Option<nat>)
    requires p <= |s|
    ensures r.Some? ==> p <= r.value && Closes(s, q, r.value)
    ensures r.Some? ==> forall e: nat :: p <= e < r.value ==> !Closes(s, q, e)
    ensures r.None? ==> forall e: nat :: p <= e ==> !Closes(s, q, e)
    decreases |s| - p
  {
    if Closes(s, q, p) then Some(p)
    else if p < |s| then QuotedEnd(s, q, p + 1)
    else None
  }

  /** How the optional value group and the tail fare at the first non-blank character after `=`. */
  datatype ValueMatch = Absent | Present(text: string) | Rejected

  /**
   * The optional value group followed by the tail, from position `v`, just after
   * the blanks that follow `=` (a possessive run, never given back). An unquoted
   * value starts with a character that is not a quote, `#` or whitespace, runs to
   * the first `#` and loses its trailing whitespace; a quoted value loses its
   * quotes; nothing, or a comment, gives no value; a quote that is never properly
   * closed makes the whole alternative fail.
   */
  function MatchValue(line: string, v: nat): (r: ValueMatch)
    requires v <= |line|
  {
    if v == |line| || line[v] == '#' then Absent
    else if IsQuote(line[v]) then
      match QuotedEnd(line, line[v], v + 1)
      case Some(e) => Present(line[v + 1..e])
      case None => Rejected
    else Present(line[v..TrimEnd(line, v, HashFrom(line, v))])
  }

  /** The first alternative: optional blanks, the key, optional blanks, `=`, optional blanks, then the value and the tail. */
  function MatchAssignment(line: Line): (m: Option<Match>)
    ensures m.Some? ==> m.value.Assignment? && IsKey(m.value.key)
  {
    var i := SkipSpaces(line, 0);
    var k := KeyEnd(line, i);
    if k == i then None
    else
      var j := SkipSpaces(line, k);
      if j == |line| || line[j] != '=' then None
      else
        WithKey(line[i..k], MatchValue(line, SkipSpaces(line, j + 1)))
  }

  /** The assignment a key and the value group's outcome make; a rejected value rejects the line. */
  function WithKey(key: string, v: ValueMatch): Option<Match> {
    match v
    case Absent => Some(Assignment(key, None))
    case Present(t) => Some(Assignment(key, Some(t)))
    case Rejected => None
  }

  /**
   * The second alternative: optional blanks, `.` or `source`, at least one blank,
   * then everything up to the first `#` as the argument, then the tail.
   */
  function MatchDirective(line: Line): (m: Option<Match>)
    ensures m.Some? ==> m.value.Directive?
  {
    var i := SkipSpaces(line, 0);
    var word := if i < |line| && line[i] == '.' then "." else if OccursAt(line, "source", i) then "source" else "";
    if word == "" then None
    else
      var p := i + |word|;
      var q := SkipSpaces(line, p);
      if q == p then None
      else Some(Directive(word, line[q..HashFrom(line, q)]))
  }

  /** One line against the whole regex: the assignment alternative is tried first. */
  function ParseLine(line: Line): Option<Match> {
    match MatchAssignment(line)
    case Some(m) => Some(m)
    case None => MatchDirective(line)
  }

  /** `preg_match_all` over the lines: the matches in line order; a line that matches nothing adds nothing. */
  function Matches(lines: seq<Line>): seq<Match> {
    if lines == [] then []
    else
      var ms := Matches(lines[..|lines| - 1]);
      match ParseLine(lines[|lines| - 1])
      case Some(m) => ms + [m]
      case None => ms
  }

  /**
   * The body of the `foreach`: key from group 1, value from group 3 when it is
   * set and `""` otherwise. A directive leaves group 1 unmatched, which PHP
   * reports as the empty string.
   */
  function EntryOf(m: Match): (e: Entry)
    ensures m.Assignment? ==> e.key == m.key
    ensures m.Directive? ==> e == Entry("", "")
  {
    match m
    case Assignment(k, Some(v)) => Entry(k, v)
    case Assignment(k, None) => Entry(k, "")
    case Directive(_, _) => Entry("", "")
  }

  function Entries(ms: seq<Match>): (es: seq<Entry>)
    ensures |es| == |ms|
    ensures forall i :: 0 <= i < |ms| ==> es[i] == EntryOf(ms[i])
  {
    seq(|ms|, i requires 0 <= i < |ms| => EntryOf(ms[i]))
  }

  /** What `parseString` returns for the given lines. */
  function ParsedPairs(lines: seq<Line>): (r: PhpArray)
    ensures r.Valid()
  {
    PutAllValid(Entries(Matches(lines)));
    PutAll(Entries(Matches(lines)))
  }
}

=== FILE: line_grammar_facts.dfy ===
/** What the line grammar promises about keys, values, comments and quotes. */
module LineGrammarFacts {
  import opened Wrappers
  import opened Text
  import opened OrderedPairs
  import opened LineGrammar

  /** Scanning stops where its contract says, so a run known from its pieces gives its end. */
  lemma SkipSpacesAt(s: string, i: nat, j: nat)
    requires i <= j <= |s|
    requires forall k :: i <= k < j ==> IsSpace(s[k])
    requires j == |s| || !IsSpace(s[j])
    ensures SkipSpaces(s, i) == j
  {
  }

  lemma KeyEndAt(s: string, i: nat, j: nat)
    requires i <= j <= |s|
    requires forall k :: i <= k < j ==> IsKeyChar(s[k])
    requires j == |s| || !IsKeyChar(s[j])
    ensures KeyEnd(s, i) == j
  {
  }

  lemma HashFromAt(s: string, i: nat, j: nat)
    requires i <= j <= |s|
    requires forall k :: i <= k < j ==> s[k] != '#'
    requires j == |s| || s[j] == '#'
    ensures HashFrom(s, i) == j
  {
  }

  /**
   * The unquoted value is the lazy match the regex finds: the shortest non-empty
   * run from the first character, without `#`, after which only whitespace and
   * an optional comment remain.
   */
  lemma LazyUnquoted(s: string, v: nat)
    requires v < |s| && !IsQuote(s[v]) && s[v] != '#' && !IsSpace(s[v])
    ensures var e := TrimEnd(s, v, HashFrom(s, v));
      && v < e
      && (forall k :: v <= k < e ==> s[k] != '#')
      && TailMatches(s, e)
      && forall t :: v < t < e ==> !TailMatches(s, t)
  {
    var h := HashFrom(s, v);
    var e := TrimEnd(s, v, h);
    SkipSpacesAt(s, e, h);
    forall t | v < t < e ensures !TailMatches(s, t) {
      NoTailBefore(s, t, e - 1, h);
    }
  }

  /** Before a non-blank character that is not `#`, no tail can start. */
  lemma NoTailBefore(s: string, t: nat, last: nat, h: nat)
    requires t <= last < h <= |s|
    requires !IsSpace(s[last])
    requires forall k :: t <= k < h ==> s[k] != '#'
    ensures !TailMatches(s, t)
  {
    assert SkipSpaces(s, t) <= last;
  }

  /**
   * The lazy quoted content exactly as PCRE backtracks through it: at each
   * position try to close; failing that, consume the item `\2` when it is there
   * and search on from after it; when that whole attempt fails, consume one
   * character other than a line break.
   */
  function QuotedBacktrack(s: string, q: char, p: nat): Option<nat>
    requires p <= |s|
    decreases |s| - p
  {
    if Closes(s, q, p) then Some(p)
    else
      var pair := if p + 1 < |s| && s[p] == '\\' && s[p + 1] == '2' then QuotedBacktrack(s, q, p + 2) else None;
      if pair.Some? then pair
      else if p < |s| && s[p] != '\n' then QuotedBacktrack(s, q, p + 1)
      else None
  }

  /**
   * Backtracking through the quoted content settles on the first quote after
   * which a tail can match: the two-character item `\2` skips only a digit,
   * which cannot close, so a backslash never hides a closing quote.
   */
  lemma {:induction false} QuotedFirstClose(s: Line, q: char, p: nat)
    requires p <= |s| && IsQuote(q)
    ensures QuotedBacktrack(s, q, p) == QuotedEnd(s, q, p)
    decreases |s| - p
  {
    if !Closes(s, q, p) && p < |s| {
      QuotedFirstClose(s, q, p + 1);
      if p + 1 < |s| && s[p] == '\\' && s[p + 1] == '2' {
        QuotedFirstClose(s, q, p + 2);
        assert !Closes(s, q, p + 1);
      }
    }
  }

  /** A quote with a valid tail, and none before it, is where the value closes. */
  lemma QuotedUnique(s: string, q: char, p: nat, e: nat)
    requires p <= e && Closes(s, q, e)
    requires forall k: nat :: p <= k < e ==> !Closes(s, q, k)
    ensures QuotedEnd(s, q, p) == Some(e)
  {
  }

  lemma TrimEndAt(s: string, i: nat, j: nat, e: nat)
    requires i <= e <= j <= |s|
    requires forall k :: e <= k < j ==> IsSpace(s[k])
    requires e == i || !IsSpace(s[e - 1])
    ensures TrimEnd(s, i, j) == e
  {
  }

  /** Once the key, the `=` and the blanks around them are located, the value decides the match. */
  lemma AssignmentAt(line: Line, a: nat, b: nat, c: nat, d: nat)
    requires KeyLayout(line, a, b, c, d) && (d == |line| || !IsSpace(line[d]))
    ensures MatchAssignment(line) == WithKey(line[a..b], MatchValue(line, d))
  {
    LayoutPositions(line, a, b, c, d);
    LayoutGives(line, a, b, c, d);
  }

  /** The scans of the assignment alternative stop at the located positions. */
  lemma LayoutPositions(line: Line, a: nat, b: nat, c: nat, d: nat)
    requires KeyLayout(line, a, b, c, d) && (d == |line| || !IsSpace(line[d]))
    ensures SkipSpaces(line, 0) == a && KeyEnd(line, a) == b && SkipSpaces(line, b) == c && SkipSpaces(line, c + 1) == d
  {
    SkipSpacesAt(line, 0, a);
    if b < c {
      assert IsSpace(line[b]);
    }
    KeyEndAt(line, a, b);
    SkipSpacesAt(line, b, c);
    SkipSpacesAt(line, c + 1, d);
  }

  /** Once the scans are known to stop at `a`, `b`, `c` and `d`, the assignment is decided by the value group at `d`. */
  lemma LayoutGives(line: Line, a: nat, b: nat, c: nat, d: nat)
    requires a < b <= c < |line| && d <= |line|
    requires SkipSpaces(line, 0) == a && KeyEnd(line, a) == b && SkipSpaces(line, b) == c
    requires line[c] == '=' && SkipSpaces(line, c + 1) == d
    ensures MatchAssignment(line) == WithKey(line[a..b], MatchValue(line, d))
  {
  }

  /**
   * The pieces of an assignment line up to its value: blanks before `a`, the key
   * in `[a, b)`, blanks, the `=` at `c`, blanks, and the value text from `d`.
   */
  predicate KeyLayout(line: string, a: nat, b: nat, c: nat, d: nat) {
    && a < b <= c < d <= |line|
    && (forall k :: 0 <= k < a ==> IsSpace(line[k]))
    && (forall k :: a <= k < b ==> IsKeyChar(line[k]))
    && (forall k :: b <= k < c ==> IsSpace(line[k]))
    && line[c] == '='
    && (forall k :: c < k < d ==> IsSpace(line[k]))
  }

  /** After position `f`: nothing, or a comment. */
  predicate CommentFrom(line: string, f: nat) {
    f == |line| || (f < |line| && line[f] == '#')
  }

  /**
   * `KEY=` and `KEY=  # comment` store the empty string: with nothing but blanks
   * and an optional comment after `=`, the value group does not take part.
   */
  lemma EmptyValue(line: Line, a: nat, b: nat, c: nat, d: nat)
    requires KeyLayout(line, a, b, c, d) && CommentFrom(line, d)
    ensures ParseLine(line) == Some(Assignment(line[a..b], None))
    ensures EntryOf(ParseLine(line).value) == Entry(line[a..b], "")
  {
    AssignmentAt(line, a, b, c, d);
  }

  /**
   * An unquoted value is the text from its first character to the first `#`,
   * without the blanks before that `#`: `${...}` references in it stay as they are.
   */
  lemma UnquotedValue(line: Line, a: nat, b: nat, c: nat, d: nat, e: nat, f: nat)
    requires KeyLayout(line, a, b, c, d) && d < e <= f <= |line|
    requires !IsQuote(line[d]) && !IsSpace(line[d]) && !IsSpace(line[e - 1])
    requires forall k :: d <= k < e ==> line[k] != '#'
    requires forall k :: e <= k < f ==> IsSpace(line[k])
    requires CommentFrom(line, f)
    ensures ParseLine(line) == Some(Assignment(line[a..b], Some(line[d..e])))
  {
    AssignmentAt(line, a, b, c, d);
    HashFromAt(line, d, f);
    TrimEndAt(line, d, f, e);
  }

  /**
   * A quoted value comes back without its quotes and otherwise verbatim, `#` and
   * backslashes included: it runs up to the first quote after which only blanks
   * and an optional comment remain.
   */
  lemma QuotedValue(line: Line, a: nat, b: nat, c: nat, d: nat, e: nat)
    requires KeyLayout(line, a, b, c, d) && d < e < |line|
    requires IsQuote(line[d]) && Closes(line, line[d], e)
    requires forall k: nat :: d < k < e ==> !Closes(line, line[d], k)
    ensures ParseLine(line) == Some(Assignment(line[a..b], Some(line[d + 1..e])))
  {
    QuotedUnique(line, line[d], d + 1, e);
    assert MatchValue(line, d) == Present(line[d + 1..e]);
    AssignmentAt(line, a, b, c, d);
  }

  /**
   * After the closing quote only blanks and a comment may follow; otherwise the
   * assignment alternative fails, and the line fares as the directive alternative
   * does (a line such as `. ='x` is still a directive).
   */
  lemma QuotedNeedsCleanTail(line: Line, a: nat, b: nat, c: nat, d: nat)
    requires KeyLayout(line, a, b, c, d) && d < |line| && IsQuote(line[d])
    requires forall e: nat :: d < e ==> !Closes(line, line[d], e)
    ensures MatchAssignment(line) == None
    ensures ParseLine(line) == MatchDirective(line)
  {
    AssignmentAt(line, a, b, c, d);
    assert QuotedEnd(line, line[d], d + 1).None?;
  }

  /** A plain value written as `KEY=value` parses back to that key and value. */
  lemma PlainRoundTrip(key: string, value: string)
    requires IsKey(key) && IsPlainValue(value)
    requires forall k :: 0 <= k < |value| ==> value[k] != '\n'
    ensures '\n' !in key + "=" + value
    ensures ParseLine(key + "=" + value) == Some(Assignment(key, Some(value)))
  {
    var line := key + "=" + value;
    var b := |key|;
    PlainLineChars(key, value);
    UnquotedValue(line, 0, b, b, b + 1, |line|, |line|);
    assert line[0..b] == key;
    assert line[b + 1..|line|] == value;
  }

  /** The characters of `key=value`: the key's, then `=`, then the value's, and no line break. */
  lemma PlainLineChars(key: string, value: string)
    requires IsKey(key)
    requires forall k :: 0 <= k < |value| ==> value[k] != '\n'
    ensures var line := key + "=" + value;
      && (forall k :: 0 <= k < |key| ==> line[k] == key[k])
      && line[|key|] == '='
      && (forall k :: |key| < k < |line| ==> line[k] == value[k - |key| - 1])
      && '\n' !in line
  {
    var line := key + "=" + value;
    forall k | 0 <= k < |line| ensures line[k] != '\n' {
      if k < |key| { assert !IsSpace(key[k]); }
    }
  }

  /** A value that can be written without quotes: no `#`, and no quote or blank where it starts or blank where it ends. */
  predicate IsPlainValue(value: string) {
    && |value| > 0
    && !IsQuote(value[0]) && !IsSpace(value[0]) && !IsSpace(value[|value| - 1])
    && forall k :: 0 <= k < |value| ==> value[k] != '#'
  }

  /** Every match comes from one of the lines. */
  lemma {:induction false} MatchOrigin(lines: seq<Line>, j: int)
    requires 0 <= j < |Matches(lines)|
    ensures exists i :: 0 <= i < |lines| && ParseLine(lines[i]) == Some(Matches(lines)[j])
  {
    var n := |lines| - 1;
    var ms := Matches(lines[..n]);
    if j < |ms| {
      MatchOrigin(lines[..n], j);
      var i :| 0 <= i < n && ParseLine(lines[..n][i]) == Some(ms[j]);
      assert lines[i] == lines[..n][i];
    } else {
      assert ParseLine(lines[n]) == Some(Matches(lines)[j]);
    }
  }

  /**
   * Every key `parseString` produces is a well-formed key (non-empty, without
   * `#`, blanks or `=`), except the empty key, which only a `.`/`source`
   * directive line produces.
   */
  lemma ParsedKeys(lines: seq<Line>, k: string)
    requires k in ParsedPairs(lines).values
    ensures IsKey(k) || (k == "" && exists i :: 0 <= i < |lines| && ParseLine(lines[i]).Some? && ParseLine(lines[i]).value.Directive?)
  {
    var es := Entries(Matches(lines));
    PutAllKeys(es, k);
    var j :| 0 <= j < |es| && es[j].key == k;
    MatchOrigin(lines, j);
    var i :| 0 <= i < |lines| && ParseLine(lines[i]) == Some(Matches(lines)[j]);
    if MatchAssignment(lines[i]).None? {
      assert ParseLine(lines[i]) == MatchDirective(lines[i]);
    }
  }

  /**
   * A line holding only blanks, or blanks and then a `#` comment, matches neither
   * alternative: there is no key before `=`, and no `.` or `source`.
   */
  lemma BlankOrCommentLine(l: Line)
    requires SkipSpaces(l, 0) == |l| || l[SkipSpaces(l, 0)] == '#'
    ensures ParseLine(l) == None
  {
  }

  /** A line that matches no alternative (blank, comment, or malformed) adds nothing. */
  lemma UnmatchedLineAddsNothing(lines: seq<Line>, l: Line)
    requires ParseLine(l) == None
    ensures ParsedPairs(lines + [l]) == ParsedPairs(lines)
  {
    assert (lines + [l])[..|lines|] == lines;
  }

  /** A line that matches adds its entry: the key takes the entry's value, in place if it was stored before, last otherwise. */
  lemma MatchedLineAdds(lines: seq<Line>, l: Line, m: Match)
    requires ParseLine(l) == Some(m)
    ensures ParsedPairs(lines + [l]) == Put(ParsedPairs(lines), EntryOf(m).key, EntryOf(m).value)
  {
    assert (lines + [l])[..|lines|] == lines;
    var ms := Matches(lines);
    assert Entries(ms + [m]) == Entries(ms) + [EntryOf(m)];
    assert (Entries(ms) + [EntryOf(m)])[..|Entries(ms)|] == Entries(ms);
  }
}

=== FILE: line_scenarios.dfy ===
/**
 * Concrete lines run through the line grammar: the package's own expectations
 * for `parseString`, and the cases that show how comments, quotes and
 * backslashes decide what a line yields.
 */
module LineScenarios {
  import opened Wrappers
  import opened Text
  import opened OrderedPairs
  import opened LineGrammar
  import opened LineGrammarFacts

  const CommentLine: Line := "PATH=  # comment"

  lemma CommentLineLayout()
    ensures SkipSpaces(CommentLine, 0) == 0 && KeyEnd(CommentLine, 0) == 4 && SkipSpaces(CommentLine, 4) == 4
    ensures CommentLine[4] == '=' && SkipSpaces(CommentLine, 5) == 7
  {
  }

  /** `PATH=  # comment`: no value group, so the key gets the empty string. */
  lemma CommentOnlyValue()
    ensures ParseLine(CommentLine) == Some(Assignment("PATH", None))
    ensures EntryOf(ParseLine(CommentLine).value) == Entry("PATH", "")
  {
    CommentLineLayout();
    CommentLineValue();
    LayoutGives(CommentLine, 0, 4, 4, 7);
  }

  lemma CommentLineValue()
    ensures MatchValue(CommentLine, 7) == Absent && CommentLine[0..4] == "PATH"
  {
  }

  const PathLine: Line := "PATH=/usr/local/bin"

  lemma PathLineLayout()
    ensures SkipSpaces(PathLine, 0) == 0 && KeyEnd(PathLine, 0) == 4 && SkipSpaces(PathLine, 4) == 4
    ensures PathLine[4] == '=' && SkipSpaces(PathLine, 5) == 5
  {
  }

  lemma PathLineEnd()
    ensures HashFrom(PathLine, 5) == 19 && TrimEnd(PathLine, 5, 19) == 19
  {
  }

  lemma PathLineValue()
    ensures MatchValue(PathLine, 5) == Present("/usr/local/bin")
  {
    PathLineEnd();
    assert PathLine == "PATH=" + "/usr/local/bin";
    assert PathLine[5..19] == "/usr/local/bin";
  }

  /** `PATH=/usr/local/bin`: an unquoted value runs to the end of the line. */
  lemma UnquotedToEnd()
    ensures ParseLine(PathLine) == Some(Assignment("PATH", Some("/usr/local/bin")))
  {
    PathLineLayout();
    PathLineValue();
    assert PathLine[0..4] == "PATH";
    LayoutGives(PathLine, 0, 4, 4, 5);
  }

  const QuotedLine: Line := " K = 'a b' #c"

  lemma QuotedLineLayout()
    ensures SkipSpaces(QuotedLine, 0) == 1 && KeyEnd(QuotedLine, 1) == 2 && SkipSpaces(QuotedLine, 2) == 3
    ensures QuotedLine[3] == '=' && SkipSpaces(QuotedLine, 4) == 5
  {
  }

  /** Blanks around the key and `=`, a quoted value with a blank inside, then a comment: the quotes go, the blank stays. */
  lemma QuotedWithComment()
    ensures ParseLine(QuotedLine) == Some(Assignment("K", Some("a b")))
  {
    QuotedLineLayout();
    assert QuotedEnd(QuotedLine, '\'', 6) == Some(9);
    assert QuotedLine[6..9] == "a b";
    assert QuotedLine[1..2] == "K";
    LayoutGives(QuotedLine, 1, 2, 3, 5);
  }

  const ReferenceLine: Line := "P = ${E:=t}/b #c"

  lemma ReferenceLineLayout()
    ensures SkipSpaces(ReferenceLine, 0) == 0 && KeyEnd(ReferenceLine, 0) == 1 && SkipSpaces(ReferenceLine, 1) == 2
    ensures ReferenceLine[2] == '=' && SkipSpaces(ReferenceLine, 3) == 4
  {
  }

  lemma ReferenceLineComment()
    ensures HashFrom(ReferenceLine, 4) == 14
  {
  }

  lemma ReferenceLineValue()
    ensures MatchValue(ReferenceLine, 4) == Present("${E:=t}/b")
  {
    ReferenceLineComment();
    assert TrimEnd(ReferenceLine, 4, 14) == 13;
    assert ReferenceLine[4..13] == "${E:=t}/b";
  }

  /** A reference is kept verbatim by the parser; the comment and the blank before it are dropped. */
  lemma ReferenceKeptVerbatim()
    ensures ParseLine(ReferenceLine) == Some(Assignment("P", Some("${E:=t}/b")))
  {
    ReferenceLineLayout();
    ReferenceLineValue();
    assert ReferenceLine[0..1] == "P";
    LayoutGives(ReferenceLine, 0, 1, 2, 4);
  }

  const BackslashQuoteLine: Line := "K=\"\\\" #\""

  lemma BackslashQuoteLayout()
    ensures SkipSpaces(BackslashQuoteLine, 0) == 0 && KeyEnd(BackslashQuoteLine, 0) == 1 && SkipSpaces(BackslashQuoteLine, 1) == 1
    ensures BackslashQuoteLine[1] == '=' && SkipSpaces(BackslashQuoteLine, 2) == 2
  {
  }

  /**
   * A backslash escapes nothing: the quote right after it is followed by a blank
   * and a `#`, so it closes the value, and the rest of the line is a comment.
   */
  lemma BackslashQuoteCloses()
    ensures ParseLine(BackslashQuoteLine) == Some(Assignment("K", Some("\\")))
  {
    BackslashQuoteLayout();
    assert Closes(BackslashQuoteLine, '"', 4);
    assert QuotedEnd(BackslashQuoteLine, '"', 3) == Some(4);
    assert BackslashQuoteLine[3..4] == "\\";
    assert BackslashQuoteLine[0..1] == "K";
    LayoutGives(BackslashQuoteLine, 0, 1, 1, 2);
  }

  const BackslashLine: Line := "K=\"a\\\""

  lemma BackslashLineLayout()
    ensures SkipSpaces(BackslashLine, 0) == 0 && KeyEnd(BackslashLine, 0) == 1 && SkipSpaces(BackslashLine, 1) == 1
    ensures BackslashLine[1] == '=' && SkipSpaces(BackslashLine, 2) == 2
  {
  }

  /** A backslash right before the closing quote is an ordinary character of the value. */
  lemma BackslashBeforeClose()
    ensures ParseLine(BackslashLine) == Some(Assignment("K", Some("a\\")))
  {
    BackslashLineLayout();
    assert QuotedEnd(BackslashLine, '"', 3) == Some(5);
    assert BackslashLine[3..5] == "a\\";
    assert BackslashLine[0..1] == "K";
    LayoutGives(BackslashLine, 0, 1, 1, 2);
  }

  const UnterminatedLine: Line := "K='abc"

  /** An unterminated quote rejects the whole line, although the key and `=` are in place. */
  lemma UnterminatedQuote()
    ensures ParseLine(UnterminatedLine) == None
  {
    assert SkipSpaces(UnterminatedLine, 0) == 0 && KeyEnd(UnterminatedLine, 0) == 1;
    assert SkipSpaces(UnterminatedLine, 1) == 1 && SkipSpaces(UnterminatedLine, 2) == 2;
    assert QuotedEnd(UnterminatedLine, '\'', 3) == None;
    LayoutGives(UnterminatedLine, 0, 1, 1, 2);
    assert MatchDirective(UnterminatedLine) == None;
  }

  const SourceLine: Line := "source other.env"

  lemma SourceLineIsNoAssignment()
    ensures MatchAssignment(SourceLine) == None
  {
    assert KeyEnd(SourceLine, 0) == 6 && SkipSpaces(SourceLine, 6) == 7;
  }

  lemma SourceLineDirective()
    ensures MatchDirective(SourceLine) == Some(Directive("source", "other.env"))
  {
    assert SkipSpaces(SourceLine, 0) == 0;
    assert SourceLine[0] != '.';
    assert OccursAt(SourceLine, "source", 0);
    assert SkipSpaces(SourceLine, 6) == 7;
    assert HashFrom(SourceLine, 7) == 16;
    assert SourceLine[7..16] == "other.env";
  }

  /** `source` lines match the second alternative and store the empty key with the empty value. */
  lemma SourceDirective()
    ensures ParseLine(SourceLine) == Some(Directive("source", "other.env"))
    ensures EntryOf(ParseLine(SourceLine).value) == Entry("", "")
  {
    SourceLineIsNoAssignment();
    SourceLineDirective();
  }
}

=== FILE: loader.dfy ===
/**
 * `parse`: the pairs of an ordered array are applied to the store one after
 * the other, each value dereferenced against the store as it is at that point
 * and then written with `setEnv`.
 */
module Loader {
  import opened EnvStore
  import opened OrderedPairs
  import opened Reference

  /**
   * `deReferenceString`: given the store and a raw value, the store afterwards
   * (a `${NAME:=default}` inside the value may set variables) and the value
   * with its references replaced. Its code is not part of this model, so it is
   * a parameter; the lemmas only assume it never changes or removes a set
   * variable, which is what `getReference` guarantees.
   */
  type Dereferencer = (Store, string) -> (Store, string)

  ghost predicate OnlyAdds(d: Dereferencer) {
    forall st, s :: Extends(d(st, s).0, st)
  }

  /** A value without references: dereferencing leaves it and the store as they are. */
  function Literal(st: Store, s: string): (r: (Store, string))
    ensures r.0 == st && r.1 == s
  {
    (st, s)
  }

  /**
   * A value that is one whole reference `${...}` with no braces inside is
   * evaluated by `getReference`; any other value is taken literally. This
   * covers the single-reference values of the package's tests; nested and
   * embedded references belong to `deReferenceString`, which is not part of this model.
   */
  function WholeReference(st: Store, s: string): (Store, string) {
    if IsWholeReference(s) then Evaluate(st, s[2..|s| - 1]) else (st, s)
  }

  predicate IsWholeReference(s: string) {
    && |s| >= 3 && s[0] == '$' && s[1] == '{' && s[|s| - 1] == '}'
    && '{' !in s[2..|s| - 1] && '}' !in s[2..|s| - 1]
  }

  /** One iteration of the `foreach`: dereference the value, then `setEnv`. */
  function Step(st: Store, e: Entry, overwrite: bool, d: Dereferencer): Store {
    var r := d(st, e.value);
    Written(r.0, e.key, r.1, overwrite)
  }

  /** The store after `parse` has applied the entries in order. */
  function ApplyAll(st: Store, es: seq<Entry>, overwrite: bool, d: Dereferencer): Store
    decreases |es|
  {
    if es == [] then st
    else Step(ApplyAll(st, es[..|es| - 1], overwrite, d), es[|es| - 1], overwrite, d)
  }

  /** The pairs of a PHP array, in its iteration order. */
  function EntriesOf(a: PhpArray): (es: seq<Entry>)
    requires a.Valid()
    ensures |es| == |a.order|
    ensures forall i :: 0 <= i < |es| ==> es[i].key == a.order[i] && es[i].value == a.values[a.order[i]]
  {
    seq(|a.order|, i requires 0 <= i < |a.order| => Entry(a.order[i], a.values[a.order[i]]))
  }

  /** Applying one more entry is one more step. */
  lemma ApplyAllSnoc(st: Store, es: seq<Entry>, e: Entry, overwrite: bool, d: Dereferencer)
    ensures ApplyAll(st, es + [e], overwrite, d) == Step(ApplyAll(st, es, overwrite, d), e, overwrite, d)
  {
    assert (es + [e])[..|es|] == es;
  }

  /** Applying a sequence in two parts is applying it whole. */
  lemma {:induction false} ApplyAllSplit(st: Store, es: seq<Entry>, n: nat, overwrite: bool, d: Dereferencer)
    requires n <= |es|
    ensures ApplyAll(st, es, overwrite, d) == ApplyAll(ApplyAll(st, es[..n], overwrite, d), es[n..], overwrite, d)
    decreases |es|
  {
    if n == |es| {
      assert es[..n] == es;
      assert es[n..] == [];
    } else {
      var m := |es| - 1;
      ApplyAllSplit(st, es[..m], n, overwrite, d);
      assert es[..m][..n] == es[..n];
      assert es[..m][n..] == es[n..][..|es[n..]| - 1];
      assert es[n..][|es[n..]| - 1] == es[m];
    }
  }

  /** Every entry's key is set afterwards, and so is every variable set before. */
  lemma {:induction false} ApplyAllSets(st: Store, es: seq<Entry>, overwrite: bool, d: Dereferencer)
    requires OnlyAdds(d)
    ensures forall k :: k in st ==> k in ApplyAll(st, es, overwrite, d)
    ensures forall j :: 0 <= j < |es| ==> es[j].key in ApplyAll(st, es, overwrite, d)
    decreases |es|
  {
    if es != [] {
      var p := es[..|es| - 1];
      ApplyAllSets(st, p, overwrite, d);
      var pre := ApplyAll(st, p, overwrite, d);
      assert Extends(d(pre, es[|es| - 1].value).0, pre);
      forall j | 0 <= j < |es| ensures es[j].key in ApplyAll(st, es, overwrite, d) {
        if j < |es| - 1 { assert es[j] == p[j]; }
      }
    }
  }

  /** Without overwriting, `parse` never changes or removes a variable that was set before it. */
  lemma {:induction false} KeepsWithoutOverwrite(st: Store, es: seq<Entry>, d: Dereferencer)
    requires OnlyAdds(d)
    ensures Extends(ApplyAll(st, es, false, d), st)
    decreases |es|
  {
    if es != [] {
      var p := es[..|es| - 1];
      KeepsWithoutOverwrite(st, p, d);
      var pre := ApplyAll(st, p, false, d);
      assert Extends(d(pre, es[|es| - 1].value).0, pre);
    }
  }

  /** A variable that no entry names keeps the value it had, whether or not `parse` overwrites. */
  lemma {:induction false} UntouchedKept(st: Store, es: seq<Entry>, overwrite: bool, d: Dereferencer, k: string)
    requires OnlyAdds(d)
    requires k in st && forall j :: 0 <= j < |es| ==> es[j].key != k
    ensures k in ApplyAll(st, es, overwrite, d) && ApplyAll(st, es, overwrite, d)[k] == st[k]
    decreases |es|
  {
    if es != [] {
      var p := es[..|es| - 1];
      UntouchedKept(st, p, overwrite, d, k);
      var pre := ApplyAll(st, p, overwrite, d);
      assert Extends(d(pre, es[|es| - 1].value).0, pre);
    }
  }

  /**
   * When overwriting, a key ends up holding the value its last entry
   * dereferenced to, against the store as it was when that entry was reached.
   */
  lemma OverwriteLastWins(st: Store, es: seq<Entry>, d: Dereferencer, k: string, j: int)
    requires OnlyAdds(d)
    requires IsLast(es, k, j)
    ensures k in ApplyAll(st, es, true, d)
    ensures ApplyAll(st, es, true, d)[k] == d(ApplyAll(st, es[..j], true, d), es[j].value).1
  {
    ApplyAllSplit(st, es, j + 1, true, d);
    assert es[..j + 1] == es[..j] + [es[j]];
    ApplyAllSnoc(st, es[..j], es[j], true, d);
    UntouchedKept(ApplyAll(st, es[..j + 1], true, d), es[j + 1..], true, d, k);
  }

  /**
   * Without overwriting, the first entry that reaches an unset key decides it
   * for good: it holds whatever the dereferencing set it to, or else the
   * dereferenced value.
   */
  lemma FirstWriteStays(st: Store, es: seq<Entry>, d: Dereferencer, k: string, j: int)
    requires OnlyAdds(d)
    requires 0 <= j < |es| && es[j].key == k && k !in ApplyAll(st, es[..j], false, d)
    ensures var r := d(ApplyAll(st, es[..j], false, d), es[j].value);
      && k in ApplyAll(st, es, false, d)
      && ApplyAll(st, es, false, d)[k] == if k in r.0 then r.0[k] else r.1
  {
    ApplyAllSplit(st, es, j + 1, false, d);
    assert es[..j + 1] == es[..j] + [es[j]];
    ApplyAllSnoc(st, es[..j], es[j], false, d);
    KeepsWithoutOverwrite(ApplyAll(st, es[..j + 1], false, d), es[j + 1..], d);
  }

  /**
   * Values without references, written with overwriting: the last entry of each
   * key wins. `Literal` is what `deReferenceString` does on values without `${`;
   * on any other values it is only the identity dereferencer.
   */
  lemma LiteralOverwrite(st: Store, es: seq<Entry>, k: string, j: int)
    requires IsLast(es, k, j)
    ensures k in ApplyAll(st, es, true, Literal) && ApplyAll(st, es, true, Literal)[k] == es[j].value
  {
    LiteralOnlyAdds();
    OverwriteLastWins(st, es, Literal, k, j);
  }

  /**
   * Values without references, written without overwriting: a set variable keeps
   * its value, an unset one takes its first entry's. As above, `Literal` stands
   * for `deReferenceString` on values without `${`.
   */
  lemma LiteralKeep(st: Store, es: seq<Entry>, k: string, j: int)
    requires IsFirst(es, k, j)
    ensures k in ApplyAll(st, es, false, Literal)
    ensures ApplyAll(st, es, false, Literal)[k] == if k in st then st[k] else es[j].value
  {
    LiteralOnlyAdds();
    KeepsWithoutOverwrite(st, es, Literal);
    if k !in st {
      UnsetBeforeFirst(st, es, false, Literal, k, j);
      FirstWriteStays(st, es, Literal, k, j);
    }
  }

  /** With a dereferencer that sets nothing, a key no earlier entry names is as unset as it was before. */
  lemma {:induction false} UnsetBeforeFirst(st: Store, es: seq<Entry>, overwrite: bool, d: Dereferencer, k: string, j: int)
    requires forall st', s :: d(st', s).0 == st'
    requires k !in st && 0 <= j <= |es| && forall j' :: 0 <= j' < j ==> es[j'].key != k
    ensures k !in ApplyAll(st, es[..j], overwrite, d)
    decreases j
  {
    if j > 0 {
      assert es[..j][..j - 1] == es[..j - 1];
      UnsetBeforeFirst(st, es, overwrite, d, k, j - 1);
    }
  }

  lemma LiteralOnlyAdds()
    ensures OnlyAdds(Literal)
  {
  }

  /** Evaluating a whole reference only ever adds the variable it names. */
  lemma WholeReferenceOnlyAdds()
    ensures OnlyAdds(WholeReference)
  {
    forall st, s ensures Extends(WholeReference(st, s).0, st) {
      if IsWholeReference(s) {
        EvaluateOnlyAdds(st, s[2..|s| - 1]);
      }
    }
  }

  /**
   * The keys of a PHP array are distinct, so each entry is both the first and
   * the last one carrying its key.
   */
  lemma EntriesOfDistinct(a: PhpArray, i: int)
    requires a.Valid() && 0 <= i < |a.order|
    ensures IsFirst(EntriesOf(a), a.order[i], i) && IsLast(EntriesOf(a), a.order[i], i)
  {
  }

  /**
   * `parse` with overwriting, on a PHP array: every key of the array ends up
   * holding its value as dereferenced when the loop reached it.
   */
  lemma ParseOverwrites(st: Store, a: PhpArray, d: Dereferencer, i: int)
    requires OnlyAdds(d) && a.Valid() && 0 <= i < |a.order|
    ensures a.order[i] in ApplyAll(st, EntriesOf(a), true, d)
    ensures ApplyAll(st, EntriesOf(a), true, d)[a.order[i]]
         == d(ApplyAll(st, EntriesOf(a)[..i], true, d), a.values[a.order[i]]).1
  {
    EntriesOfDistinct(a, i);
    OverwriteLastWins(st, EntriesOf(a), d, a.order[i], i);
  }
}

=== FILE: ordered_pairs.dfy ===
/**
 * A PHP array with string keys, as `parseString` fills it: the keys in order of
 * first insertion, and the value each key currently holds.
 */
module OrderedPairs {

  /** One `key => value` pair, as a match of the line grammar produces it. */
  datatype Entry = Entry(key: string, value: string)

  datatype PhpArray = PhpArray(order: seq<string>, values: map<string, string>) {
    /** Every key stands once in `order`, and `order` lists exactly the keys that hold a value. */
    ghost predicate Valid() {
      && (forall i, j :: 0 <= i < j < |order| ==> order[i] != order[j])
      && (forall k :: k in values <==> k in order)
    }
  }

  const Empty := PhpArray([], map[])

  /** `$pairs[$k] = $v`, which keeps the array well formed; `PutEffect` states what it changes. */
  function Put(a: PhpArray, k: string, v: string): (r: PhpArray)
    ensures a.Valid() ==> r.Valid()
  {
    if k in a.values then a.(values := a.values[k := v])
    else PhpArray(a.order + [k], a.values[k := v])
  }

  /** After `Put` the key holds `v`; an existing key keeps its place, a new one goes last; no other key moves or changes. */
  lemma PutEffect(a: PhpArray, k: string, v: string)
    ensures var r := Put(a, k, v);
      && k in r.values && r.values[k] == v
      && (forall k' :: k' in a.values && k' != k ==> k' in r.values && r.values[k'] == a.values[k'])
      && r.order == if k in a.values then a.order else a.order + [k]
  {
  }

  /** The array built by storing the entries one after the other, as the `foreach` over the matches does. */
  function PutAll(es: seq<Entry>): PhpArray {
    if es == [] then Empty
    else Put(PutAll(es[..|es| - 1]), es[|es| - 1].key, es[|es| - 1].value)
  }

  /** Storing entries one by one keeps every key once, in `order`. */
  lemma {:induction false} PutAllValid(es: seq<Entry>)
    ensures PutAll(es).Valid()
  {
    if es != [] {
      PutAllValid(es[..|es| - 1]);
    }
  }

  /** Entry `j` is the last entry of `es` that carries key `k`. */
  predicate IsLast(es: seq<Entry>, k: string, j: int) {
    0 <= j < |es| && es[j].key == k && forall j' :: j < j' < |es| ==> es[j'].key != k
  }

  /** Entry `j` is the first entry of `es` that carries key `k`. */
  predicate IsFirst(es: seq<Entry>, k: string, j: int) {
    0 <= j < |es| && es[j].key == k && forall j' :: 0 <= j' < j ==> es[j'].key != k
  }

  /** The array holds exactly the keys that some entry carries. */
  lemma {:induction false} PutAllKeys(es: seq<Entry>, k: string)
    ensures k in PutAll(es).values <==> exists j :: 0 <= j < |es| && es[j].key == k
  {
    if es != [] {
      var n := |es| - 1;
      PutAllKeys(es[..n], k);
      if k in PutAll(es[..n]).values {
        var j :| 0 <= j < n && es[..n][j].key == k;
        assert es[j].key == k;
      }
    }
  }

  /** A repeated key takes the value of its last entry. */
  lemma {:induction false} PutAllLastWins(es: seq<Entry>, k: string, j: int)
    requires IsLast(es, k, j)
    ensures k in PutAll(es).values && PutAll(es).values[k] == es[j].value
  {
    var n := |es| - 1;
    if j < n {
      assert IsLast(es[..n], k, j);
      PutAllLastWins(es[..n], k, j);
    }
  }

  /**
   * A key keeps the place of its first insertion: keys stand in the array in the
   * order in which they first occur among the entries.
   */
  lemma {:induction false} PutAllFirstOrder(es: seq<Entry>, a: int, b: int, ja: int, jb: int)
    requires 0 <= a < b < |PutAll(es).order|
    requires IsFirst(es, PutAll(es).order[a], ja) && IsFirst(es, PutAll(es).order[b], jb)
    ensures ja < jb
  {
    var n := |es| - 1;
    var p, e := es[..n], es[n];
    var r, r' := PutAll(p), PutAll(es);
    PutAllValid(p);
    assert r' == Put(r, e.key, e.value);
    var ka, kb := r'.order[a], r'.order[b];
    if b < |r.order| {
      assert r.order[a] == ka && r.order[b] == kb;
      PutAllKeys(p, ka);
      PutAllKeys(p, kb);
      assert IsFirst(p, ka, ja) && IsFirst(p, kb, jb);
      PutAllFirstOrder(p, a, b, ja, jb);
    } else {
      assert e.key !in r.values && kb == e.key;
      PutAllKeys(p, kb);
      assert jb == n;
      assert ka == r.order[a];
      PutAllKeys(p, ka);
    }
  }
}

=== FILE: reference.dfy ===
/**
 * `getReference`: how the inside of one `${...}` reference is read and
 * evaluated against the store. `:-` gives a default without storing it, `:=`
 * stores the default first when the variable is unset.
 */
module Reference {
  import opened Wrappers
  import opened Text
  import opened EnvStore

  datatype Operator = Plain | Fallback | Assign

  /** A reference split into the variable name, its default, and the operator between them. */
  datatype Ref = Ref(name: string, default: string, op: Operator)

  const FallbackSep := ":-"
  const AssignSep := ":="

  /**
   * `:-` is looked for first, anywhere in the text; only when it is absent is
   * `:=` looked for. The text is split at the first occurrence of the operator
   * (an `explode` limited to two parts), so whatever follows, including further
   * operators, is the default. Without an operator the default is empty.
   */
  function Split(expr: string): (r: Ref)
    ensures r.op == Fallback <==> Contains(expr, FallbackSep)
    ensures r.op == Assign <==> !Contains(expr, FallbackSep) && Contains(expr, AssignSep)
  {
    match IndexOf(expr, FallbackSep)
    case Some(i) => Ref(expr[..i], expr[i + 2..], Fallback)
    case None =>
      match IndexOf(expr, AssignSep)
      case Some(i) => Ref(expr[..i], expr[i + 2..], Assign)
      case None => Ref(expr, "", Plain)
  }

  /** The reference text a split describes: name, operator, default. */
  function Join(r: Ref): string {
    match r.op
    case Plain => r.name
    case Fallback => r.name + FallbackSep + r.default
    case Assign => r.name + AssignSep + r.default
  }

  /** A split as the first-occurrence rule produces it: no operator in the name, and no `:-` at all when splitting at `:=`. */
  predicate Canonical(r: Ref) {
    match r.op
    case Plain => r.default == "" && !Contains(r.name, FallbackSep) && !Contains(r.name, AssignSep)
    case Fallback => !Contains(r.name, FallbackSep)
    case Assign => !Contains(r.name, AssignSep) && !Contains(r.name + AssignSep + r.default, FallbackSep)
  }

  /** `getReference`: the store after the call, and the value it returns. */
  function Evaluate(st: Store, expr: string): (Store, string) {
    var r := Split(expr);
    var st' := if r.op == Assign then Written(st, r.name, r.default, false) else st;
    (st', if r.name in st' then st'[r.name] else r.default)
  }

  /** An occurrence that lies inside a prefix is an occurrence in the whole text, and conversely. */
  lemma OccursInPrefix(s: string, n: nat, sep: string, j: nat)
    requires n <= |s| && j + |sep| <= n
    ensures OccursAt(s[..n], sep, j) <==> OccursAt(s, sep, j)
  {
    assert s[..n][j..j + |sep|] == s[j..j + |sep|];
  }

  /** An operator written right after a name is the first one in the text when the name holds none. */
  lemma FirstAfterName(name: string, sep: string, rest: string)
    requires sep == FallbackSep || sep == AssignSep
    requires !Contains(name, sep)
    ensures IndexOf(name + sep + rest, sep) == Some(|name|)
  {
    var s := name + sep + rest;
    assert s[..|name|] == name;
    assert s[|name|..|name| + 2] == sep;
    forall j: nat | j < |name| ensures !OccursAt(s, sep, j) {
      if j + 2 <= |name| {
        OccursInPrefix(s, |name|, sep, j);
      } else {
        assert s[j + 1] == ':';
      }
    }
    assert OccursAt(s, sep, |name|);
    var r := IndexOf(s, sep);
    assert r.Some? && r.value <= |name|;
  }

  /** Splitting and joining give back the text, and the split is canonical. */
  lemma SplitJoin(expr: string)
    ensures Join(Split(expr)) == expr
    ensures Canonical(Split(expr))
  {
    var r := Split(expr);
    if r.op != Plain {
      var sep := if r.op == Fallback then FallbackSep else AssignSep;
      var i := IndexOf(expr, sep).value;
      assert expr == expr[..i] + sep + expr[i + 2..];
      forall j: nat | j <= |r.name| ensures !OccursAt(r.name, sep, j) {
        if j + 2 <= i { OccursInPrefix(expr, i, sep, j); }
      }
    }
  }

  /** Conversely, a canonical split is the one the text it describes splits into: the split is unique. */
  lemma JoinSplit(r: Ref)
    requires Canonical(r)
    ensures Split(Join(r)) == r
  {
    var e := Join(r);
    match r.op
    case Plain =>
    case Fallback =>
      FirstAfterName(r.name, FallbackSep, r.default);
      assert e[..|r.name|] == r.name;
      assert e[|r.name| + 2..] == r.default;
    case Assign =>
      FirstAfterName(r.name, AssignSep, r.default);
      assert e[..|r.name|] == r.name;
      assert e[|r.name| + 2..] == r.default;
  }

  /**
   * With `:-` anywhere in the text: split at the first `:-`; the result is the
   * variable's value when it is set and the default otherwise; the store is unchanged.
   */
  lemma EvaluateFallback(st: Store, expr: string, i: nat)
    requires OccursAt(expr, FallbackSep, i) && forall j: nat :: j < i ==> !OccursAt(expr, FallbackSep, j)
    ensures Evaluate(st, expr).0 == st
    ensures Evaluate(st, expr).1 == if expr[..i] in st then st[expr[..i]] else expr[i + 2..]
  {
    assert IndexOf(expr, FallbackSep) == Some(i);
  }

  /**
   * With no `:-` but a `:=`: split at the first `:=`; the variable is set to the
   * default only if it was unset, and the result is its value afterwards: the
   * value it already had, or the default.
   */
  lemma EvaluateAssign(st: Store, expr: string, i: nat)
    requires !Contains(expr, FallbackSep)
    requires OccursAt(expr, AssignSep, i) && forall j: nat :: j < i ==> !OccursAt(expr, AssignSep, j)
    ensures var name, default := expr[..i], expr[i + 2..];
      && Evaluate(st, expr).0 == (if name in st then st else st[name := default])
      && name in Evaluate(st, expr).0
      && Evaluate(st, expr).1 == Evaluate(st, expr).0[name]
      && Evaluate(st, expr).1 == (if name in st then st[name] else default)
  {
    assert IndexOf(expr, AssignSep) == Some(i);
  }

  /**
   * With no operator the whole text is the name and the default is empty; a
   * variable set to the empty string counts as set. The store is unchanged.
   */
  lemma EvaluatePlain(st: Store, expr: string)
    requires !Contains(expr, FallbackSep) && !Contains(expr, AssignSep)
    ensures Evaluate(st, expr).0 == st
    ensures Evaluate(st, expr).1 == if expr in st then st[expr] else ""
  {
  }

  /** `getReference` only ever adds the variable it names; it never changes or removes a set one. */
  lemma EvaluateOnlyAdds(st: Store, expr: string)
    ensures Extends(Evaluate(st, expr).0, st)
    ensures forall k :: k in Evaluate(st, expr).0 ==> k in st || k == Split(expr).name
  {
  }
}

=== FILE: scenarios.dfy ===
/**
 * Concrete cases for the store and for references: the package's own test
 * expectations restated against the model, and the cases that show how the
 * first-occurrence rule and the order of `parse` decide.
 */
module Scenarios {
  import opened Text
  import opened EnvStore
  import opened OrderedPairs
  import opened Reference
  import opened Loader

  /** `setEnv` on an unset variable writes it, overwriting or not; on a set one without overwriting it does nothing. */
  lemma SetEnvCases()
    ensures Written(map[], "ENV_TEST", "test", true) == map["ENV_TEST" := "test"]
    ensures Written(map[], "ENV_TEST", "test", false) == map["ENV_TEST" := "test"]
    ensures Written(map["ENV_TEST" := "bingo"], "ENV_TEST", "test", false) == map["ENV_TEST" := "bingo"]
  {
  }

  /** A text without the operator's second character cannot hold the operator. */
  lemma Lacks(s: string, sep: string)
    requires |sep| == 2 && sep[1] !in s
    ensures !Contains(s, sep)
  {
  }

  /** `:-` uses the default only while the variable is unset, and never stores it. */
  lemma FallbackCases()
    ensures Evaluate(map[], "ENV_TEST:-test") == (map[], "test")
    ensures Evaluate(map["ENV_TEST" := "bingo"], "ENV_TEST:-test") == (map["ENV_TEST" := "bingo"], "bingo")
  {
    Lacks("ENV_TEST", FallbackSep);
    JoinSplit(Ref("ENV_TEST", "test", Fallback));
    assert Join(Ref("ENV_TEST", "test", Fallback)) == "ENV_TEST:-test";
  }

  /** `:=` keeps a set variable, and stores the default in an unset one. */
  lemma AssignCases()
    ensures Evaluate(map["ENV_TEST" := "bingo"], "ENV_TEST:=test") == (map["ENV_TEST" := "bingo"], "bingo")
    ensures Evaluate(map[], "ENV_TEST:=test") == (map["ENV_TEST" := "test"], "test")
  {
    Lacks("ENV_TEST", AssignSep);
    Lacks("ENV_TEST:=test", FallbackSep);
    JoinSplit(Ref("ENV_TEST", "test", Assign));
    assert Join(Ref("ENV_TEST", "test", Assign)) == "ENV_TEST:=test";
  }

  /** `:-` is looked for first, anywhere: here it wins over an earlier `:=`, which stays in the name. */
  lemma FallbackBeatsEarlierAssign()
    ensures Split("A:=x:-y") == Ref("A:=x", "y", Fallback)
  {
    Lacks("A:=x", FallbackSep);
    JoinSplit(Ref("A:=x", "y", Fallback));
    assert Join(Ref("A:=x", "y", Fallback)) == "A:=x:-y";
  }

  /** Only the first operator splits; a second one is part of the default. */
  lemma SecondOperatorIsDefault()
    ensures Split("N:-a:-b") == Ref("N", "a:-b", Fallback)
  {
    Lacks("N", FallbackSep);
    JoinSplit(Ref("N", "a:-b", Fallback));
    assert Join(Ref("N", "a:-b", Fallback)) == "N:-a:-b";
  }

  /** `${MY_TMP_DIR:-/tmp}` with the variable unset evaluates to the default and sets nothing. */
  lemma TmpDirReference()
    ensures WholeReference(map[], "${MY_TMP_DIR:-/tmp}") == (map[], "/tmp")
  {
    assert "${MY_TMP_DIR:-/tmp}"[2..18] == "MY_TMP_DIR:-/tmp";
    assert IsWholeReference("${MY_TMP_DIR:-/tmp}");
    Lacks("MY_TMP_DIR", FallbackSep);
    JoinSplit(Ref("MY_TMP_DIR", "/tmp", Fallback));
    assert Join(Ref("MY_TMP_DIR", "/tmp", Fallback)) == "MY_TMP_DIR:-/tmp";
  }

  /**
   * Loading `TMP_DIR=${MY_TMP_DIR:-/tmp}` with `MY_TMP_DIR` unset: `TMP_DIR`
   * gets the default, and `MY_TMP_DIR` stays unset.
   */
  lemma FallbackValueLoaded()
    ensures var st := ApplyAll(map[], [Entry("TMP_DIR", "${MY_TMP_DIR:-/tmp}")], true, WholeReference);
      && st == map["TMP_DIR" := "/tmp"]
      && "MY_TMP_DIR" !in st
  {
    var e := Entry("TMP_DIR", "${MY_TMP_DIR:-/tmp}");
    ApplyAllSnoc(map[], [], e, true, WholeReference);
    assert [] + [e] == [e];
    TmpDirReference();
  }

  /** `${B:=x}` with `B` unset stores `x` in `B` and evaluates to it. */
  lemma AssignReference()
    ensures WholeReference(map[], "${B:=x}") == (map["B" := "x"], "x")
  {
    assert "${B:=x}"[2..6] == "B:=x";
    assert IsWholeReference("${B:=x}");
    Lacks("B", AssignSep);
    Lacks("B:=x", FallbackSep);
    JoinSplit(Ref("B", "x", Assign));
    assert Join(Ref("B", "x", Assign)) == "B:=x";
  }

  /**
   * Without overwriting, a variable set earlier in the same file by `:=`
   * counts as already set: loading into an empty environment, `A`'s reference
   * sets `B` to `x`, so when `B`'s own entry is reached it is skipped, and `B`
   * ends up with `x`, neither unset before loading nor its dereferenced value `y`.
   */
  lemma EarlierAssignShadows()
    ensures var es := [Entry("A", "${B:=x}"), Entry("B", "y")];
      && ApplyAll(map[], es, false, WholeReference) == map["A" := "x", "B" := "x"]
      && ApplyAll(map[], es[..1], false, WholeReference) == map["A" := "x", "B" := "x"]
      && WholeReference(ApplyAll(map[], es[..1], false, WholeReference), "y").1 == "y"
  {
    var a, b := Entry("A", "${B:=x}"), Entry("B", "y");
    var es := [a, b];
    ApplyAllSnoc(map[], [], a, false, WholeReference);
    assert [] + [a] == es[..1];
    AssignReference();
    var mid := ApplyAll(map[], es[..1], false, WholeReference);
    assert mid == map["B" := "x", "A" := "x"];
    ApplyAllSnoc(map[], es[..1], b, false, WholeReference);
    assert es[..1] + [b] == es;
    assert !IsWholeReference("y");
  }

  /** A variable set to the empty string counts as set: its empty value wins over the default. */
  lemma EmptyValueCountsAsSet()
    ensures Evaluate(map["N" := ""], "N:-d") == (map["N" := ""], "")
  {
    Lacks("N", FallbackSep);
    JoinSplit(Ref("N", "d", Fallback));
    assert Join(Ref("N", "d", Fallback)) == "N:-d";
  }
}

=== FILE: text.dfy ===
/**
 * Character classes and scanning helpers shared by the line grammar and the
 * reference splitter: PCRE's `\s`, possessive runs, `strpos`, and right trimming.
 */
module Text {
  import opened Wrappers

  /** PCRE's `\s` without the UTF flag: space, tab, line feed, vertical tab, form feed, carriage return. */
  predicate IsSpace(c: char) {
    c == ' ' || c == '\t' || c == '\n' || c == '\U{B}' || c == '\U{C}' || c == '\r'
  }

  /** The end of the longest whitespace run starting at `i` (a possessive `\s*+`). */
  function SkipSpaces(s: string, i: nat): (j: nat)
    requires i <= |s|
    ensures i <= j <= |s|
    ensures forall k :: i <= k < j ==> IsSpace(s[k])
    ensures j < |s| ==> !IsSpace(s[j])
    decreases |s| - i
  {
    if i < |s| && IsSpace(s[i]) then SkipSpaces(s, i + 1) else i
  }

  /** The first `#` at or after `i`, or `|s|` when there is none. */
  function HashFrom(s: string, i: nat): (h: nat)
    requires i <= |s|
    ensures i <= h <= |s|
    ensures forall k :: i <= k < h ==> s[k] != '#'
    ensures h < |s| ==> s[h] == '#'
    decreases |s| - i
  {
    if i < |s| && s[i] != '#' then HashFrom(s, i + 1) else i
  }

  /** Where `s[i..j]` ends once its trailing whitespace is dropped. */
  function TrimEnd(s: string, i: nat, j: nat): (e: nat)
    requires i <= j <= |s|
    ensures i <= e <= j
    ensures forall k :: e <= k < j ==> IsSpace(s[k])
    ensures e == i || !IsSpace(s[e - 1])
    decreases j - i
  {
    if i < j && IsSpace(s[j - 1]) then TrimEnd(s, i, j - 1) else j
  }

  predicate OccursAt(s: string, sep: string, i: nat) {
    i + |sep| <= |s| && s[i..i + |sep|] == sep
  }

  predicate Contains(s: string, sep: string) {
    exists i: nat :: i <= |s| && OccursAt(s, sep, i)
  }

  /** The first occurrence of `sep` at or after `i` (PHP's `strpos`, which gives FALSE when there is none). */
  function IndexFrom(s: string, sep: string, i: nat): (r: Option<nat>)
    requires i <= |s|
    ensures r.Some? ==> i <= r.value && OccursAt(s, sep, r.value)
    ensures r.Some? ==> forall j: nat :: i <= j < r.value ==> !OccursAt(s, sep, j)
    ensures r.None? ==> forall j: nat :: i <= j ==> !OccursAt(s, sep, j)
    decreases |s| - i
  {
    if OccursAt(s, sep, i) then Some(i)
    else if i == |s| then None
    else IndexFrom(s, sep, i + 1)
  }

  function IndexOf(s: string, sep: string): (r: Option<nat>)
    ensures r.Some? <==> Contains(s, sep)
    ensures r.Some? ==> OccursAt(s, sep, r.value) && forall j: nat :: j < r.value ==> !OccursAt(s, sep, j)
  {
    IndexFrom(s, sep, 0)
  }
}

=== FILE: wrappers.dfy ===
/** The optional value used wherever the original returns FALSE or leaves a group unmatched. */
module Wrappers {
  datatype Option<+T> = None | Some(value: T)
}
